=== FILE: README.md ===
# AI Writing Assistant: generation proxy and browser controller

A Dafny model of the two pieces of logic in the AI Writing Assistant:

- the `POST /api/generate` handler of the Express proxy (`server.js`): it
  checks that `type`, `context` and `tone` are present, picks a fixed
  system/user prompt pair for the content type (`email`, `social`, `blog`),
  calls the hosted chat-completion API once with a fixed model and token
  limit, and relays the first choice's text, or a fixed 400 or 500 error;
- the browser controller (`script.js`): the selected type and tone, the
  context text box, the three page sections (input form, loading indicator,
  results), the generated text and the notification toasts, with the
  handlers `selectType`, `selectTone`, `generateContent`,
  `showLoadingState`, `hideLoadingState`, `showResults`,
  `showNotification`, `resetForm` and the `keydown` listener.

Layout:

| file | module | contents |
|---|---|---|
| `wrappers.dfy` | `Wrappers` | `Option` |
| `js_values.dfy` | `JsValues` | JSON values as JavaScript sees them (truthiness, `${}` interpolation, `textContent`), and `String.prototype.trim` with its characterisation |
| `server.dfy` | `Server` | request, prompt, completion and response datatypes; the templates; the handler `Handle` |
| `server_properties.dfy` | `ServerProperties` | the handler's promises over all bodies and all completion APIs |
| `client.dfy` | `Client` | the page record and the handlers as pure transitions |
| `client_properties.dfy` | `ClientProperties` | the handlers' promises, one call at a time |
| `client_session.dfy` | `ClientSession` | the controller driven by event sequences; invariants every run keeps |
| `end_to_end.dfy` | `EndToEnd` | the browser's request fed to the handler and the response fed back |

Modelling choices:

- A field read from a JSON body is a `JsValue`: `Undefined`, `Null`, an
  exact string, or any other JSON value reduced to its truthiness and the
  text ECMAScript's ToString gives it. That conversion can throw: an object
  with its own non-function `toString` member, such as `{"toString": 1}`,
  has no string form, and the text is then `None`. This is what `!x`,
  `switch` with `===`, `${x}`, `new Error(x)` and `textContent = x` use.
  A throwing `${tone}` or `${context}` sends the handler to its catch
  block, so it answers the generic 500 without calling the completion API
  (`UnconvertibleTone`). A throwing `textContent = content` or
  `new Error(data.error)` sends the browser to its catch block, which shows
  the `TypeError`'s message in a red toast.
- The completion API is a parameter, a total function from the request the
  handler builds to `Thrown(reason)` or `Completed(choices)`. `Handle`
  returns the response together with the list of calls it made, so "no
  call" and "exactly one call" are statements about that list.
- `generateContent` is asynchronous. `StartGenerate` is the part that runs
  before the `fetch` resolves: trimming, validation, the loading state and
  the request. `FinishGenerate` is the part that runs once the fetch
  settles. How the fetch settled is an input (`NetworkError`, or `Received`
  with the `ok` flag and either an unreadable body or the fields
  `success`, `content` and `error`).
- The toasts are the list of `.notification` elements on the page.
  `showNotification` removes the first one that `querySelector` finds and
  then appends the new one, so the list never grows past one.
- `ClientSession` runs the controller over a sequence of page events. It
  also counts the fetches that have not settled yet, so a settle event only
  happens after a request was sent.
- `index.html` is not part of this model. The initial page (`Initial`) is
  taken to have nothing selected, every section hidden and no toast.

Three behaviours of the code worth knowing:

- The server checks only that `tone` is truthy. It does not restrict tone to
  an enumerated set, and it echoes the tone back in the 200 body.
- The client trims the context before checking it, so whitespace alone
  counts as empty. The server does not trim, so a whitespace-only context
  passes the server's field check (`WhitespaceContextAccepted`).
- `resetForm` does not cancel a request that is still in flight. If that
  request later succeeds, the results appear on the page that was just
  reset (`ResetDoesNotCancel`).

## Model

| member | source | states |
|---|---|---|
| JsValues.TrimStart | script.js:56 | the result is a suffix of the input, everything dropped is whitespace or a line terminator, and the result does not start with one |
| JsValues.TrimEnd | script.js:56 | the result is a prefix of the input, everything dropped is whitespace or a line terminator, and the result does not end with one |
| JsValues.Truthy | server.js:32 | `undefined`, `null` and the empty string are falsy and every other string is truthy, as `!x` (server.js:32) and `data.success` / `data.error ||` (script.js:92, 96) test them |
| JsValues.Interpolate | server.js:44-55 | ToString as the template literals and `new Error(x)` (script.js:96) apply it: a string is itself, `undefined` and `null` give "undefined" and "null", and it throws exactly for a value with no string form |
| JsValues.TextContent | script.js:121 | the `textContent` setter (also script.js:33): `undefined` and `null` show as the empty string, a string shows as itself, and it throws exactly for a value with no string form |
| JsValues.Trim | script.js:56 | the trim is never longer than its input; `TrimIsTrimOf`, `TrimOfUnique`, `TrimEmptyIff` and `TrimIdempotent` characterise it |
| JsValues.TrimIsTrimOf | script.js:56 | `trim()` returns a slice of its input: a trimmable prefix and suffix are dropped, and neither end of the rest is trimmable |
| JsValues.TrimEnds | script.js:56 | a trimmed string neither starts nor ends with whitespace or a line terminator |
| JsValues.TrimOfUnique | script.js:56 | there is only one such slice, so the characterisation determines `trim()` |
| JsValues.TrimKeeps | script.js:56 | every character that is not whitespace lies inside the slice a trim keeps, so the trim is non-empty when the input has one |
| JsValues.TrimEmptyIff | script.js:56-59 | the trimmed context is empty exactly when every character is whitespace or a line terminator |
| JsValues.TrimFixesTrimmed | script.js:56 | a string that neither starts nor ends with whitespace trims to itself |
| JsValues.TrimIdempotent | script.js:56 | trimming an already trimmed string changes nothing |
| Server.ParseType | server.js:42-60 | the `switch` selects a template exactly for the strings `email`, `social` and `blog`, compared with `===` |
| Server.BuildPrompts | server.js:42-56 | the user prompt ends with the context verbatim and the blog system prompt is fixed; `UserPromptShape`, `ToneDeterminesPrompts` and `ContextDeterminesPrompts` state how the type, tone and context shape the pair |
| Server.CompletionRequestFor | server.js:62-70 | the call names `gpt-3.5-turbo`, allows 500 tokens, and sends the system prompt then the user prompt; `ValidInputCallsOnce` shows valid input makes exactly this call |
| Server.RenderPrompts | server.js:42-56 | the templates render exactly when the context, and for email and social the tone, convert to text; they are then the prompt pair for those texts |
| Server.Relay | server.js:72-85 | a completion with a first choice gives a 200 with `success: true`, that choice's content and the echoed type and tone; a thrown call or an empty choice list gives the fixed 500 |
| Server.Handle | server.js:28-87 | the status is always 200, 400 or 500; at most one completion call is made; a 400 never comes with a call; a response without a call that is not a 400 is the generic 500 |
| ServerProperties.UserPromptShape | server.js:42-56 | every user prompt is a fixed prefix for the type followed by the context verbatim; for email and social, the tone appears in both prompts; the blog system prompt is fixed |
| ServerProperties.ToneDeterminesPrompts | server.js:44-55 | for email and social, two tones give the same prompt pair exactly when they are equal; the blog pair does not depend on the tone |
| ServerProperties.ContextDeterminesPrompts | server.js:44-55 | for a fixed type and tone, two contexts give the same prompt pair exactly when they are equal |
| ServerProperties.MissingFieldsFirst | server.js:32-36 | the missing-fields 400 is returned exactly when a field is falsy, whatever the type; no call is made in that case |
| ServerProperties.UnknownTypeRejected | server.js:42-62 | the invalid-type 400 is returned exactly when all fields are present and the type is not one of the three names; the completion API is not called |
| ServerProperties.OkOnlyForKnownType | server.js:42-79 | a 200 requires all fields present and a type equal to one of the three names, and comes after exactly one call |
| ServerProperties.ValidInputCallsOnce | server.js:42-79 | valid input makes exactly one call when its templates render, and none otherwise; the call has model `gpt-3.5-turbo`, 500 max tokens, the type's system prompt, and a user prompt that is the type's prefix plus the context; the response is that call's outcome relayed, so a first choice gives the 200 with `success: true`, its content and the echoed type and tone |
| ServerProperties.SuccessEchoesRequest | server.js:72-79 | a 200 body has `success: true`, the first choice's content, and the request's own type and tone |
| ServerProperties.FailureIsGeneric | server.js:81-85 | a failed call gives the fixed 500 message; two completion APIs that fail differently produce identical responses |
| ServerProperties.UnrenderableFieldFails | server.js:42-85 | the generic 500 without a call is given exactly when the fields are present, the type is known, and converting the tone or context for the templates throws |
| ServerProperties.UnconvertibleTone | server.js:44-51 | a tone object whose `toString` is not a function makes an email request fail with the generic 500 and no call, while a blog request, whose templates never read the tone, makes its call |
| ServerProperties.WhitespaceContextAccepted | server.js:32 | a whitespace-only context passes the server's check and is sent on to the completion API unchanged |
| ServerProperties.EchoedEmailMentionsTone | server.js:42-79 | when the completion API echoes the prompt, a friendly email request for "thank a colleague" returns a 200 whose content contains both "friendly" and the context |
| Client.ColourFor | script.js:152-155 | a toast is green exactly for `success`, red exactly for `error`, and blue otherwise |
| Client.ShowNotification | script.js:143-159 | only the toast list changes; the toasts before the new one are the old list without its first toast, and the new one is appended last; starting from at most one toast, the new one is the only one |
| Client.TitleFor | script.js:28-33 | the title is non-empty exactly for the three type names; `SelectionEffects` gives each fixed title |
| Client.SelectType | script.js:11-33 | the type is recorded and the input form is shown; only the type, the form visibility and the title change |
| Client.SelectTone | script.js:40-41 | only the tone changes |
| Client.ShowLoadingState | script.js:107-111 | only the loading section is visible afterwards; nothing else changes |
| Client.HideLoadingState | script.js:114-117 | the loading section is hidden and the input form shown; nothing else changes |
| Client.ShowResults | script.js:120-123 | fails exactly when the content cannot be converted to text; otherwise the text is stored, the results are shown and loading is hidden, and nothing else changes |
| Client.ResetForm | script.js:170-185 | type, tone and context are cleared and all three sections are hidden; the title, the generated text and the toasts stay |
| Client.FirstValidationError | script.js:59-72 | no error exactly when context, type and tone are all non-empty; otherwise the message of the first empty one in the order context, type, tone; `ValidationOrder` shows it is the only toast added |
| Client.StartGenerate | script.js:55-88 | a request is sent exactly when the trimmed context, the type and the tone are all non-empty; it carries the trimmed context; sending enters the loading state, and otherwise the only change is the first failing check's red toast |
| Client.FailureMessage | script.js:93-101 | the failure text is never empty; `FailureMessageSource` gives its source for every kind of outcome |
| Client.FinishGenerate | script.js:90-103 | loading is always hidden; a success whose content converts stores its text, shows the results and adds a green toast; anything else shows the form and adds a red toast with the error text, leaving the results and the stored text as they were |
| Client.KeyDown | script.js:188-199 | a request is sent only for Ctrl+Enter or Cmd+Enter, and it is the one generating would send; Escape resets and sends nothing; `KeyDispatch` covers every key |
| ClientProperties.ValidationOrder | script.js:56-72 | checks run in the order context, type, tone; the first failure replaces the toasts with its one red message, and nothing else changes |
| ClientProperties.LoadingOnlyAfterValidation | script.js:59-78 | the loading state changes only when a request is sent, and then loading is the only visible section; a failed validation leaves every section as it was |
| ClientProperties.BlankContextNeverSent | script.js:56-62 | a context made only of whitespace is never sent and gives the context-missing toast |
| ClientProperties.SentContextIsTrimmed | script.js:56-87 | the context that is sent is non-empty, does not start or end with whitespace, and trims to itself |
| ClientProperties.ResetThenGenerateFails | script.js:170-185 | generating right after a reset fails the context check, sends no request and does not show loading |
| ClientProperties.SettledOutcome | script.js:92-123 | the complete page after a settled fetch: on a success whose content converts, its text is stored, the results are shown, loading is hidden and there is one green toast; otherwise loading is hidden, the form is shown and there is one red toast |
| ClientProperties.FailureMessageSource | script.js:93-101 | for an unsuccessful response, the ToString text of a truthy `error` (a string as it is), the conversion's message when `error` cannot be converted, or "Failed to generate content" when it is falsy; the conversion's message for a success whose content cannot be shown; for a rejected fetch or an unreadable body, that error's own message; "Failed to generate content. Please try again." whenever that text is empty; it is never empty |
| ClientProperties.SelectionEffects | script.js:11-41 | the form title is non-empty exactly for the three type names, and each has its own fixed title; choosing a tone changes only the tone |
| ClientProperties.NotificationReplaces | script.js:143-159 | starting from at most one toast, exactly one remains, with the given message and the colour its kind selects |
| ClientProperties.KeyDispatch | script.js:188-199 | Ctrl+Enter or Cmd+Enter generates; Escape resets and sends nothing; any other key changes nothing |
| ClientSession.StartConsistent | script.js:55-88 | generating keeps at most one toast, never shows loading and results together, and sends only well-formed requests |
| ClientSession.FinishConsistent | script.js:90-123 | settling a fetch keeps at most one toast and never shows loading and results together |
| ClientSession.KeyConsistent | script.js:188-199 | the key listener keeps the same invariants |
| ClientSession.StepConsistent | script.js:11-199 | every page event keeps the invariants and sends at most one well-formed request |
| ClientSession.RunConsistent | script.js:11-199 | any sequence of events starting from a consistent page keeps it consistent and sends only well-formed requests, at most one per event |
| ClientSession.ReachableConsistent | script.js:1-3 | every page reachable from the initial one has at most one toast, never shows loading and results together, and has sent only well-formed requests |
| ClientSession.NoTypeStartSendsNothing | script.js:64-67 | with no type selected, generating sends nothing and the type stays unselected |
| ClientSession.StepKeepsNoType | script.js:64-67 | with no type selected, an event that does not select a type sends nothing and the type stays unselected |
| ClientSession.NoTypeNoRequest | script.js:64-67 | with no type selected, no sequence of events that never selects a type sends a request |
| ClientSession.ResetBlocksRequests | script.js:170-185 | after a reset, nothing is sent until a type is chosen again, whatever else happens |
| ClientSession.ResetDoesNotCancel | script.js:92-94 | a request in flight during a reset, if it later succeeds with content that converts, still shows its results on the reset page |
| EndToEnd.ClientPassesFieldCheck | server.js:32-36 | every body the browser sends passes the server's field check |
| EndToEnd.Sends | script.js:74-88 | with all three inputs present, generating enters the loading state and sends the selection with the trimmed context |
| EndToEnd.Dispatches | server.js:42-70 | a request naming a known type makes the one call with that type's prompts and relays its outcome |
| EndToEnd.GeneratedResponseSucceeds | script.js:92-94 | a 200 body with `success: true` reaches the page as a success that is shown, whose text is the content, or nothing for a `null` content |
| EndToEnd.ErrorResponseFails | script.js:92-101 | a non-2xx error body reaches the page as a failure that carries the server's message |
| EndToEnd.RejectsUnknown | server.js:58-59 | a body whose type is not one of the three names gets the invalid-type 400 and makes no call |
| EndToEnd.RoundTripSuccess | server.js:62-79 | a valid selection whose completion has a first choice ends with that text in the results, one green toast and exactly one call, which carries the trimmed context |
| EndToEnd.RoundTripFailure | server.js:81-85 | a valid selection whose completion fails ends with the server's generic message in one red toast, the form visible and no results |
| EndToEnd.RoundTripUnknownType | server.js:58-59 | a selected type the server does not know ends with "Invalid content type" in one red toast, the form visible and no completion call |

## Left out

- Express wiring: `cors`, the JSON body parser, static files, `app.listen`,
  dotenv and the health endpoint (server.js:1-25, 89-103). This is framework
  I/O. A malformed JSON body is rejected by the parser before the handler
  runs.
- The OpenAI client (server.js:18-20) is replaced by the completion-API
  parameter. The sampling temperature `0.7` is a floating-point constant with
  no behaviour to verify. A choice that has no `message` object is not
  modelled; a `null` message content is.
- How non-string JSON values render. A number, boolean, object or array is
  abstracted by its truthiness and its ToString text (or the absence of
  one), so there is no floating-point arithmetic and no `NaN`.
- Client.ConversionErrorMessage: the message of the `TypeError` a failed
  conversion throws is worded by the JavaScript engine; the model uses V8's
  wording and does not model other engines' wording.
- Button styling, `scrollIntoView`, and the use of the global `event` to find
  the clicked button (script.js:15-22, 36, 44-51, 126, 176-179). These are UI
  cosmetics.
- `preventDefault` in the key listener, and the console logging throughout.
- The three-second auto-dismiss of a toast (script.js:162-166). It is a timer.
  Removing a toast could only shrink the list, so the at-most-one invariant
  is unaffected.
- The timing of `fetch`. A fetch's outcome is an event that can arrive at any
  point after its request was sent. Settle events do not say which request
  they settle.
- Clipboard copy (script.js:130-140). It is an external browser API.
- The random example placeholder (script.js:201-237). It uses `Math.random`
  and is cosmetic.
- Client.SelectType: the title for a key other than the three type names is
  modelled as empty. In the source, `titles[type]` for a name inherited from
  `Object.prototype` (such as `constructor`) would show that property's
  text. The page's buttons only pass the three names.
- JavaScript strings are modelled as a sequence of
  Unicode scalar values. Lone UTF-16 surrogates are not represented.

=== FILE: client.dfy ===
/** The browser controller: the selection held in two globals, the page's
    three sections (input form, loading indicator, results), the generated
    text, the notification toasts, and the handlers that change them.

    The DOM is a record of booleans and strings. `generateContent` is
    asynchronous; it is split into the part that runs before the `fetch`
    (validation, the loading state, the request) and the part that runs when
    the fetch settles, whose outcome is an input.
 */
module Client {
  import opened Wrappers
  import opened JsValues

  datatype Colour = Green | Red | Blue

  /** One toast on the page. */
  datatype Notification = Notification(message: string, colour: Colour)

  /** Everything the controller reads or writes. `notifications` lists the
      toast elements attached to the page, in document order. */
  datatype UiState = UiState(
    selectedType: string,
    selectedTone: string,
    contextInput: string,
    formTitle: string,
    inputFormVisible: bool,
    loadingVisible: bool,
    resultsVisible: bool,
    generatedContent: string,
    notifications: seq<Notification>)

  /** The JSON body posted to `/api/generate`. */
  datatype ApiRequest = ApiRequest(contentType: string, context: string, tone: string)

  /** What `response.json()` produced: a parse failure (or a body whose
      fields cannot be read) with its error message, or the three fields the
      controller reads. */
  datatype ParsedBody = Unreadable(reason: string) | Json(success: JsValue, content: JsValue, error: JsValue)

  /** How the fetch settled: it rejected with a message, or a response with
      its `ok` flag arrived. */
  datatype FetchOutcome = NetworkError(reason: string) | Received(ok: bool, body: ParsedBody)

  /** The state after the synchronous part of a handler, and the request it
      put on the wire, if any. */
  datatype Started = Started(state: UiState, request: Option<ApiRequest>)

  /** A `keydown` event's relevant fields. */
  datatype KeyEvent = KeyEvent(key: string, ctrlKey: bool, metaKey: bool)

  const ContextMissingMessage := "Please provide some context for your content."
  const TypeMissingMessage := "Please select a content type."
  const ToneMissingMessage := "Please select a tone."
  const SuccessMessage := "Content generated successfully!"
  const ServerErrorFallback := "Failed to generate content"
  const GenerationFailedMessage := "Failed to generate content. Please try again."
  /** The message of the `TypeError` a failed string conversion throws. The
      wording is the JavaScript engine's; this is V8's. */
  const ConversionErrorMessage := "Cannot convert object to primitive value"

  /** The form title for a type, from the fixed three-entry table; any other
      key reads `undefined`, which `textContent` shows as nothing. */
  function TitleFor(t: string): (title: string)
    ensures title != "" <==> t in {"email", "social", "blog"}
  {
    if t == "email" then "Generate Professional Email"
    else if t == "social" then "Generate Social Media Post"
    else if t == "blog" then "Generate Blog Outline"
    else ""
  }

  /** The toast colour for a notification kind. */
  function ColourFor(kind: string): (c: Colour)
    ensures c == Green <==> kind == "success"
    ensures c == Red <==> kind == "error"
  {
    if kind == "success" then Green else if kind == "error" then Red else Blue
  }

  /** `showNotification`: detach the first existing toast, if any, then
      append the new one. */
  function ShowNotification(s: UiState, message: string, kind: string): (r: UiState)
    ensures r == s.(notifications := r.notifications)
    ensures |r.notifications| == if s.notifications == [] then 1 else |s.notifications|
    ensures r.notifications[|r.notifications| - 1] == Notification(message, ColourFor(kind))
    ensures r.notifications[..|r.notifications| - 1] == if s.notifications == [] then [] else s.notifications[1..]
    ensures |s.notifications| <= 1 ==> r.notifications == [Notification(message, ColourFor(kind))]
  {
    var kept := if s.notifications == [] then [] else s.notifications[1..];
    s.(notifications := kept + [Notification(message, ColourFor(kind))])
  }

  function SelectType(s: UiState, t: string): (r: UiState)
    ensures r.selectedType == t && r.inputFormVisible
    ensures r == s.(selectedType := t, inputFormVisible := true, formTitle := r.formTitle)
  {
    s.(selectedType := t, inputFormVisible := true, formTitle := TitleFor(t))
  }

  function SelectTone(s: UiState, tone: string): (r: UiState)
    ensures r.selectedTone == tone
    ensures r == s.(selectedTone := r.selectedTone)
  {
    s.(selectedTone := tone)
  }

  /** The user edits the context text box. */
  function EnterContext(s: UiState, text: string): UiState {
    s.(contextInput := text)
  }

  function ShowLoadingState(s: UiState): (r: UiState)
    ensures r.loadingVisible && !r.inputFormVisible && !r.resultsVisible
    ensures r == s.(loadingVisible := true, inputFormVisible := false, resultsVisible := false)
  {
    s.(inputFormVisible := false, loadingVisible := true, resultsVisible := false)
  }

  function HideLoadingState(s: UiState): (r: UiState)
    ensures !r.loadingVisible && r.inputFormVisible && r.resultsVisible == s.resultsVisible
    ensures r == s.(loadingVisible := r.loadingVisible, inputFormVisible := r.inputFormVisible)
  {
    s.(loadingVisible := false, inputFormVisible := true)
  }

  /** `showResults`; `None` when assigning the content to `textContent`
      throws, which happens before anything on the page changes. */
  function ShowResults(s: UiState, content: JsValue): (r: Option<UiState>)
    ensures r.None? <==> TextContent(content).None?
    ensures r.Some? ==> r.value.resultsVisible && !r.value.loadingVisible && r.value.inputFormVisible == s.inputFormVisible
    ensures r.Some? ==> r.value.generatedContent == TextContent(content).value
    ensures r.Some? ==> r.value == s.(generatedContent := r.value.generatedContent, resultsVisible := r.value.resultsVisible,
                                      loadingVisible := r.value.loadingVisible)
  {
    match TextContent(content)
    case None => None
    case Some(text) => Some(s.(generatedContent := text, resultsVisible := true, loadingVisible := false))
  }

  /** `resetForm`: forget the selection and the context, hide every
      section. The title, the last generated text and the toasts stay. */
  function ResetForm(s: UiState): (r: UiState)
    ensures r.selectedType == "" && r.selectedTone == "" && r.contextInput == ""
    ensures !r.inputFormVisible && !r.loadingVisible && !r.resultsVisible
    ensures r.formTitle == s.formTitle && r.generatedContent == s.generatedContent
    ensures r.notifications == s.notifications
  {
    s.(selectedType := "", selectedTone := "", contextInput := "",
       inputFormVisible := false, resultsVisible := false, loadingVisible := false)
  }

  /** The validation message for the first check that fails, in the order
      context, type, tone; `None` when all pass. */
  function FirstValidationError(context: string, selectedType: string, selectedTone: string): (r: Option<string>)
    ensures r.None? <==> context != "" && selectedType != "" && selectedTone != ""
    ensures r == Some(ContextMissingMessage) <==> context == ""
    ensures r == Some(TypeMissingMessage) <==> context != "" && selectedType == ""
    ensures r == Some(ToneMissingMessage) <==> context != "" && selectedType != "" && selectedTone == ""
  {
    if context == "" then Some(ContextMissingMessage)
    else if selectedType == "" then Some(TypeMissingMessage)
    else if selectedTone == "" then Some(ToneMissingMessage)
    else None
  }

  /** The synchronous part of `generateContent`: trim the context, validate,
      and either report one error and stop, or enter the loading state and
      send the request. */
  function StartGenerate(s: UiState): (r: Started)
    ensures r.request.Some? <==> Trim(s.contextInput) != "" && s.selectedType != "" && s.selectedTone != ""
    ensures r.request.Some? ==> r.request.value == ApiRequest(s.selectedType, Trim(s.contextInput), s.selectedTone)
    ensures r.request.Some? ==> r.state == ShowLoadingState(s)
    ensures r.request.None? ==>
              r.state == ShowNotification(s, FirstValidationError(Trim(s.contextInput), s.selectedType, s.selectedTone).value, "error")
  {
    var context := Trim(s.contextInput);
    match FirstValidationError(context, s.selectedType, s.selectedTone)
    case Some(message) => Started(ShowNotification(s, message, "error"), None)
    case None => Started(ShowLoadingState(s), Some(ApiRequest(s.selectedType, context, s.selectedTone)))
  }

  /** The message a failed generation ends with. A rejected fetch or parse
      gives its own message; a successful response whose content cannot be
      shown gives the conversion's; an unsuccessful one gives `new
      Error(data.error || fallback)`'s, which is again the conversion's when
      `data.error` cannot be converted. The catch block uses its default for
      an empty message. */
  function FailureMessage(outcome: FetchOutcome): (message: string)
    ensures message != ""
  {
    var text :=
      match outcome
      case NetworkError(reason) => reason
      case Received(_, Unreadable(reason)) => reason
      case Received(ok, Json(success, _, error)) =>
        if ok && Truthy(success) then ConversionErrorMessage
        else if Truthy(error) then Interpolate(error).GetOr(ConversionErrorMessage)
        else ServerErrorFallback;
    if text != "" then text else GenerationFailedMessage
  }

  /** `response.ok && data.success`. */
  predicate Succeeded(outcome: FetchOutcome) {
    outcome.Received? && outcome.ok && outcome.body.Json? && Truthy(outcome.body.success)
  }

  /** The fetch succeeded and its content can be shown. */
  predicate Shown(outcome: FetchOutcome) {
    Succeeded(outcome) && TextContent(outcome.body.content).Some?
  }

  /** The part of `generateContent` that runs once the fetch settles. */
  function FinishGenerate(s: UiState, outcome: FetchOutcome): (r: UiState)
    ensures !r.loadingVisible && |r.notifications| >= 1
    ensures Shown(outcome) ==>
              && r.resultsVisible
              && r.inputFormVisible == s.inputFormVisible
              && r.generatedContent == TextContent(outcome.body.content).value
              && r.notifications[|r.notifications| - 1] == Notification(SuccessMessage, Green)
    ensures !Shown(outcome) ==>
              && r.inputFormVisible
              && r.resultsVisible == s.resultsVisible
              && r.generatedContent == s.generatedContent
              && r.notifications[|r.notifications| - 1] == Notification(FailureMessage(outcome), Red)
    ensures r.selectedType == s.selectedType && r.selectedTone == s.selectedTone && r.contextInput == s.contextInput
  {
    if Shown(outcome) then
      ShowNotification(ShowResults(s, outcome.body.content).value, SuccessMessage, "success")
    else
      HideLoadingState(ShowNotification(s, FailureMessage(outcome), "error"))
  }

  /** Ctrl+Enter (or Cmd+Enter) starts a generation; Escape resets. */
  predicate IsGenerateShortcut(e: KeyEvent) {
    (e.ctrlKey || e.metaKey) && e.key == "Enter"
  }

  /** The document's `keydown` listener: its two independent tests, in order. */
  function KeyDown(s: UiState, e: KeyEvent): (r: Started)
    ensures r.request.Some? ==> IsGenerateShortcut(e) && r.request == StartGenerate(s).request
    ensures e.key == "Escape" ==> r == Started(ResetForm(s), None)
  {
    var afterGenerate := if IsGenerateShortcut(e) then StartGenerate(s) else Started(s, None);
    if e.key == "Escape" then Started(ResetForm(afterGenerate.state), afterGenerate.request)
    else afterGenerate
  }
}

=== FILE: client_properties.dfy ===
/** What the controller's handlers promise one call at a time. */
module ClientProperties {
  import opened Wrappers
  import opened JsValues
  import opened Client

  /** Validation runs in a fixed order and reports exactly one error, for
      the first check that fails; on failure nothing but the toast changes:
      no loading state and no request. */
  lemma ValidationOrder(s: UiState)
    requires |s.notifications| <= 1
    ensures var r := StartGenerate(s);
            var context := Trim(s.contextInput);
            && (context == "" ==> r == Started(s.(notifications := [Notification(ContextMissingMessage, Red)]), None))
            && (context != "" && s.selectedType == "" ==>
                  r == Started(s.(notifications := [Notification(TypeMissingMessage, Red)]), None))
            && (context != "" && s.selectedType != "" && s.selectedTone == "" ==>
                  r == Started(s.(notifications := [Notification(ToneMissingMessage, Red)]), None))
  {
  }

  /** Loading is entered only once all three checks pass, and then it is the
      only visible section. */
  lemma LoadingOnlyAfterValidation(s: UiState)
    ensures var r := StartGenerate(s);
            && (r.state.loadingVisible != s.loadingVisible ==> r.request.Some?)
            && (r.request.Some? ==> r.state.loadingVisible && !r.state.inputFormVisible && !r.state.resultsVisible)
            && (r.request.None? ==> r.state.loadingVisible == s.loadingVisible
                                    && r.state.inputFormVisible == s.inputFormVisible
                                    && r.state.resultsVisible == s.resultsVisible)
  {
  }

  /** A context of nothing but whitespace is never sent: the client trims
      before checking. */
  lemma BlankContextNeverSent(s: UiState)
    requires AllTrimmable(s.contextInput)
    ensures StartGenerate(s).request.None?
    ensures |s.notifications| <= 1 ==>
              StartGenerate(s).state.notifications == [Notification(ContextMissingMessage, Red)]
  {
    TrimEmptyIff(s.contextInput);
  }

  /** The context that is sent has no leading or trailing whitespace and is
      not empty. */
  lemma SentContextIsTrimmed(s: UiState)
    requires StartGenerate(s).request.Some?
    ensures var context := StartGenerate(s).request.value.context;
            && context != ""
            && !IsTrimmable(context[0])
            && !IsTrimmable(context[|context| - 1])
            && Trim(context) == context
  {
    TrimIdempotent(s.contextInput);
    TrimEnds(s.contextInput);
  }

  /** After `resetForm`, generating fails the first check (the context is
      empty) without a request. */
  lemma ResetThenGenerateFails(s: UiState)
    ensures var r := StartGenerate(ResetForm(s));
            && r.request.None?
            && r.state.notifications[|r.state.notifications| - 1] == Notification(ContextMissingMessage, Red)
            && !r.state.loadingVisible
  {
    assert ResetForm(s).contextInput == "" && Trim("") == "";
  }

  /** The success path stores the content, shows the results and hides the
      loading indicator; the failure path shows the error text (the
      server's `error`, else the fixed fallback) in red, hides the loading
      indicator and shows the input form again. */
  lemma SettledOutcome(s: UiState, outcome: FetchOutcome)
    requires |s.notifications| <= 1
    ensures Shown(outcome) ==>
              FinishGenerate(s, outcome) == s.(generatedContent := TextContent(outcome.body.content).value,
                                               resultsVisible := true, loadingVisible := false,
                                               notifications := [Notification(SuccessMessage, Green)])
    ensures !Shown(outcome) ==>
              FinishGenerate(s, outcome) == s.(loadingVisible := false, inputFormVisible := true,
                                               notifications := [Notification(FailureMessage(outcome), Red)])
  {
    if Shown(outcome) {
      var shown := ShowResults(s, outcome.body.content).value;
      assert shown.notifications == s.notifications;
      assert FinishGenerate(s, outcome) == ShowNotification(shown, SuccessMessage, "success");
    } else {
      var told := ShowNotification(s, FailureMessage(outcome), "error");
      assert told == s.(notifications := [Notification(FailureMessage(outcome), Red)]);
      assert FinishGenerate(s, outcome) == HideLoadingState(told);
    }
  }

  /** The failure text: for an unsuccessful response, the text of a truthy
      `error` (a string as it is, anything else as ToString renders it), the
      conversion's message when it cannot be converted, and "Failed to
      generate content" when it is falsy; the conversion's message for a
      success whose content cannot be shown; the rejection's own message for
      a failed fetch or an unreadable body; the catch block's default when
      the text would be empty. */
  lemma FailureMessageSource(outcome: FetchOutcome)
    ensures outcome.Received? && outcome.body.Json? && !Succeeded(outcome) ==>
              var error := outcome.body.error;
              && (Truthy(error) && Interpolate(error).Some? && Interpolate(error).value != "" ==>
                    FailureMessage(outcome) == Interpolate(error).value)
              && (Truthy(error) && Interpolate(error) == Some("") ==> FailureMessage(outcome) == GenerationFailedMessage)
              && (error.Str? && error.s != "" ==> FailureMessage(outcome) == error.s)
              && (Truthy(error) && Interpolate(error).None? ==> FailureMessage(outcome) == ConversionErrorMessage)
              && (!Truthy(error) ==> FailureMessage(outcome) == ServerErrorFallback)
    ensures Succeeded(outcome) && !Shown(outcome) ==> FailureMessage(outcome) == ConversionErrorMessage
    ensures outcome.NetworkError? && outcome.reason != "" ==> FailureMessage(outcome) == outcome.reason
    ensures outcome.Received? && outcome.body.Unreadable? && outcome.body.reason != "" ==>
              FailureMessage(outcome) == outcome.body.reason
    ensures (outcome.NetworkError? && outcome.reason == "") || (outcome.Received? && outcome.body.Unreadable? && outcome.body.reason == "") ==>
              FailureMessage(outcome) == GenerationFailedMessage
    ensures FailureMessage(outcome) != ""
  {
  }

  /** Choosing a type shows the form with the type's title; choosing a tone
      changes nothing but the tone. */
  lemma SelectionEffects(s: UiState, t: string, tone: string)
    ensures SelectType(s, t).formTitle != "" <==> t in {"email", "social", "blog"}
    ensures SelectType(s, "email").formTitle == "Generate Professional Email"
    ensures SelectType(s, "social").formTitle == "Generate Social Media Post"
    ensures SelectType(s, "blog").formTitle == "Generate Blog Outline"
    ensures SelectTone(s, tone) == s.(selectedTone := tone)
  {
  }

  /** Showing a toast keeps at most one on the page when there was at most
      one, and the new one is coloured by its kind. */
  lemma NotificationReplaces(s: UiState, message: string, kind: string)
    requires |s.notifications| <= 1
    ensures var n := ShowNotification(s, message, kind).notifications;
            && |n| == 1
            && n[0].message == message
            && (n[0].colour == Green <==> kind == "success")
            && (n[0].colour == Red <==> kind == "error")
            && (n[0].colour == Blue <==> kind != "success" && kind != "error")
  {
  }

  /** The key listener: the shortcut starts a generation, Escape resets and
      sends nothing, any other key changes nothing. */
  lemma KeyDispatch(s: UiState, e: KeyEvent)
    ensures IsGenerateShortcut(e) ==> KeyDown(s, e) == StartGenerate(s)
    ensures e.key == "Escape" ==> KeyDown(s, e) == Started(ResetForm(s), None)
    ensures !IsGenerateShortcut(e) && e.key != "Escape" ==> KeyDown(s, e) == Started(s, None)
  {
  }
}

=== FILE: client_session.dfy ===
/** The controller driven by a sequence of page events, with the number of
    requests still in flight, and the invariants every run keeps. */
module ClientSession {
  import opened Wrappers
  import opened JsValues
  import opened Client

  /** What can happen on the page: the user clicks a type or tone button,
      edits the context, invokes generate or reset, presses a key, or a
      pending fetch settles. */
  datatype Event =
    | ChooseType(contentType: string)
    | ChooseTone(tone: string)
    | EditContext(text: string)
    | Generate
    | Reset
    | Key(e: KeyEvent)
    | Settle(outcome: FetchOutcome)

  /** The page and the number of fetches that have not settled yet. */
  datatype Session = Session(ui: UiState, inFlight: nat)

  /** A session after some events, and the requests sent along the way. */
  datatype Stepped = Stepped(session: Session, sent: seq<ApiRequest>)

  /** The page as first shown: nothing selected, every section hidden, no
      toast. */
  const Initial := Session(UiState("", "", "", "", false, false, false, "", []), 0)

  /** The request a handler put on the wire, as a list of zero or one. */
  function SentBy(r: Started): (sent: seq<ApiRequest>)
    ensures |sent| <= 1
    ensures forall q | q in sent :: r.request == Some(q)
  {
    if r.request.Some? then [r.request.value] else []
  }

  function Launch(w: Session, r: Started): Stepped {
    Stepped(Session(r.state, w.inFlight + |SentBy(r)|), SentBy(r))
  }

  /** One event. A settle event with nothing in flight cannot happen and
      leaves the session as it is. */
  function Step(w: Session, e: Event): Stepped {
    match e
    case ChooseType(t) => Stepped(w.(ui := SelectType(w.ui, t)), [])
    case ChooseTone(tone) => Stepped(w.(ui := SelectTone(w.ui, tone)), [])
    case EditContext(text) => Stepped(w.(ui := EnterContext(w.ui, text)), [])
    case Generate => Launch(w, StartGenerate(w.ui))
    case Reset => Stepped(w.(ui := ResetForm(w.ui)), [])
    case Key(k) => Launch(w, KeyDown(w.ui, k))
    case Settle(outcome) =>
      if w.inFlight == 0 then Stepped(w, [])
      else Stepped(Session(FinishGenerate(w.ui, outcome), w.inFlight - 1), [])
  }

  function Run(w: Session, events: seq<Event>): Stepped
    decreases |events|
  {
    if events == [] then Stepped(w, [])
    else
      var first := Step(w, events[0]);
      var rest := Run(first.session, events[1..]);
      Stepped(rest.session, first.sent + rest.sent)
  }

  /** What every reachable page satisfies: at most one toast, and the
      loading indicator and the results are never shown together. */
  predicate Consistent(ui: UiState) {
    |ui.notifications| <= 1 && !(ui.loadingVisible && ui.resultsVisible)
  }

  /** Every request on the wire names a type and a tone and carries a
      trimmed, non-empty context. */
  predicate WellFormedRequest(r: ApiRequest) {
    && r.contentType != "" && r.tone != "" && r.context != ""
    && !IsTrimmable(r.context[0]) && !IsTrimmable(r.context[|r.context| - 1])
  }

  /** The synchronous part of generate keeps the page consistent and sends
      at most one well-formed request. */
  lemma StartConsistent(s: UiState)
    requires Consistent(s)
    ensures Consistent(StartGenerate(s).state)
    ensures StartGenerate(s).request.Some? ==> WellFormedRequest(StartGenerate(s).request.value)
  {
    TrimEnds(s.contextInput);
  }

  lemma KeyConsistent(s: UiState, k: KeyEvent)
    requires Consistent(s)
    ensures Consistent(KeyDown(s, k).state)
    ensures KeyDown(s, k).request.Some? ==> WellFormedRequest(KeyDown(s, k).request.value)
  {
    if IsGenerateShortcut(k) {
      StartConsistent(s);
    }
  }

  lemma FinishConsistent(s: UiState, outcome: FetchOutcome)
    requires Consistent(s)
    ensures Consistent(FinishGenerate(s, outcome))
  {
  }

  lemma StepConsistent(w: Session, e: Event)
    requires Consistent(w.ui)
    ensures Consistent(Step(w, e).session.ui)
    ensures forall r | r in Step(w, e).sent :: WellFormedRequest(r)
    ensures |Step(w, e).sent| <= 1
  {
    if e.Generate? {
      StartConsistent(w.ui);
      LaunchConsistent(w, StartGenerate(w.ui));
    } else if e.Key? {
      KeyConsistent(w.ui, e.e);
      LaunchConsistent(w, KeyDown(w.ui, e.e));
    } else {
      QuietStepConsistent(w, e);
    }
  }

  /** The events that send nothing keep the invariant. */
  lemma QuietStepConsistent(w: Session, e: Event)
    requires Consistent(w.ui) && !e.Generate? && !e.Key?
    ensures Consistent(Step(w, e).session.ui) && Step(w, e).sent == []
  {
    match e
    case ChooseType(t) =>
    case ChooseTone(tone) =>
    case EditContext(text) =>
    case Reset =>
    case Settle(outcome) =>
      if w.inFlight > 0 {
        FinishConsistent(w.ui, outcome);
      }
  }

  lemma LaunchConsistent(w: Session, r: Started)
    requires Consistent(r.state)
    requires r.request.Some? ==> WellFormedRequest(r.request.value)
    ensures Consistent(Launch(w, r).session.ui)
    ensures forall q | q in Launch(w, r).sent :: WellFormedRequest(q)
    ensures |Launch(w, r).sent| <= 1
  {
  }

  /** Every run from a consistent page keeps it consistent and sends only
      well-formed requests, at most one per event. */
  lemma {:induction false} RunConsistent(w: Session, events: seq<Event>)
    requires Consistent(w.ui)
    ensures Consistent(Run(w, events).session.ui)
    ensures forall r | r in Run(w, events).sent :: WellFormedRequest(r)
    ensures |Run(w, events).sent| <= |events|
    decreases |events|
  {
    if events != [] {
      var first := Step(w, events[0]);
      StepConsistent(w, events[0]);
      RunConsistent(first.session, events[1..]);
      var rest := Run(first.session, events[1..]);
      assert Run(w, events).sent == first.sent + rest.sent;
    }
  }

  /** The initial page is consistent, so every reachable page is. */
  lemma ReachableConsistent(events: seq<Event>)
    ensures Consistent(Run(Initial, events).session.ui)
    ensures forall r | r in Run(Initial, events).sent :: WellFormedRequest(r)
  {
    RunConsistent(Initial, events);
  }

  /** An event that could select a type. */
  predicate SelectsType(e: Event) {
    e.ChooseType? && e.contentType != ""
  }

  /** With no type selected, one event that does not select one sends
      nothing and leaves the type unselected. */
  lemma StepKeepsNoType(w: Session, e: Event)
    requires w.ui.selectedType == "" && !SelectsType(e)
    ensures Step(w, e).sent == [] && Step(w, e).session.ui.selectedType == ""
  {
    match e
    case ChooseType(t) =>
    case ChooseTone(tone) =>
    case EditContext(text) =>
    case Generate => NoTypeStartSendsNothing(w.ui);
    case Reset =>
    case Key(k) =>
      NoTypeStartSendsNothing(w.ui);
      assert KeyDown(w.ui, k).request.None?;
    case Settle(outcome) =>
  }

  lemma NoTypeStartSendsNothing(s: UiState)
    requires s.selectedType == ""
    ensures StartGenerate(s).request.None? && StartGenerate(s).state.selectedType == ""
  {
  }

  /** With no type selected, no sequence of events that never selects one
      sends a request. */
  lemma {:induction false} NoTypeNoRequest(w: Session, events: seq<Event>)
    requires w.ui.selectedType == ""
    requires forall i :: 0 <= i < |events| ==> !SelectsType(events[i])
    ensures Run(w, events).sent == []
    ensures Run(w, events).session.ui.selectedType == ""
    decreases |events|
  {
    if events != [] {
      var first := Step(w, events[0]);
      StepKeepsNoType(w, events[0]);
      NoTypeNoRequest(first.session, events[1..]);
    }
  }

  /** After a reset, nothing is sent until a type is chosen again, whatever
      the user types or however often generate is invoked. */
  lemma ResetBlocksRequests(w: Session, events: seq<Event>)
    requires forall i :: 0 <= i < |events| ==> !SelectsType(events[i])
    ensures Run(w, [Reset] + events).sent == []
  {
    var first := Step(w, Reset);
    NoTypeNoRequest(first.session, events);
    assert ([Reset] + events)[1..] == events;
  }

  /** A reset does not cancel a request in flight: if it then settles
      successfully the results are shown on the reset page. */
  lemma ResetDoesNotCancel(w: Session, outcome: FetchOutcome)
    requires w.inFlight > 0 && Shown(outcome)
    ensures var ui := Run(w, [Reset, Settle(outcome)]).session.ui;
            && ui.resultsVisible
            && ui.selectedType == ""
            && ui.generatedContent == TextContent(outcome.body.content).value
  {
    var first := Step(w, Reset);
    assert [Reset, Settle(outcome)][1..] == [Settle(outcome)];
    assert Run(w, [Reset, Settle(outcome)]).session == Run(first.session, [Settle(outcome)]).session;
    assert Run(first.session, [Settle(outcome)]).session == Step(first.session, Settle(outcome)).session;
  }
}

=== FILE: end_to_end.dfy ===
/** The controller and the handler joined: the request the browser posts is
    the handler's body, and the handler's response is what the browser's
    fetch receives. */
module EndToEnd {
  import opened Wrappers
  import opened JsValues
  import Server
  import ServerProperties
  import opened Client
  import ClientProperties

  /** The body the handler destructures from the browser's JSON. */
  function ToRequestBody(r: ApiRequest): Server.RequestBody {
    Server.RequestBody(Str(r.contentType), Str(r.context), Str(r.tone))
  }

  /** The handler's response as the browser's fetch sees it: `ok` for a 2xx
      status, and the JSON fields the controller reads. */
  function ToFetchOutcome(response: Server.Response): FetchOutcome {
    var body :=
      match response.body
      case ErrorBody(e) => Json(Undefined, Undefined, Str(e))
      case GeneratedBody(success, content, _, _) =>
        Json(Other(success, Some(if success then "true" else "false")),
             if content.Some? then Str(content.value) else Null,
             Undefined);
    Received(200 <= response.status < 300, body)
  }

  /** A page after one generation round trip, and the completion calls the
      handler made. */
  datatype RoundTrip = RoundTrip(state: UiState, calls: seq<Server.CompletionRequest>)

  /** Generate, post, handle, and settle, with nothing else happening in
      between. */
  function Generate(s: UiState, complete: Server.Completion): RoundTrip {
    var started := StartGenerate(s);
    match started.request
    case None => RoundTrip(started.state, [])
    case Some(request) =>
      var handled := Server.Handle(ToRequestBody(request), complete);
      RoundTrip(FinishGenerate(started.state, ToFetchOutcome(handled.response)), handled.calls)
  }

  /** The browser never sends a body the handler's field check rejects. */
  lemma ClientPassesFieldCheck(s: UiState)
    requires StartGenerate(s).request.Some?
    ensures Server.AllFieldsPresent(ToRequestBody(StartGenerate(s).request.value))
  {
  }

  /** A valid selection whose completion comes back with a first choice
      ends with the results shown, holding that choice's text, and a green
      success toast; the one call carries the trimmed context. */
  lemma RoundTripSuccess(s: UiState, t: Server.ContentType, complete: Server.Completion)
    requires |s.notifications| <= 1
    requires s.selectedType == Server.TypeName(t) && s.selectedTone != "" && Trim(s.contextInput) != ""
    requires var call := Server.CompletionRequestFor(Server.BuildPrompts(t, s.selectedTone, Trim(s.contextInput)));
             complete(call).Completed? && |complete(call).choices| > 0
    ensures var call := Server.CompletionRequestFor(Server.BuildPrompts(t, s.selectedTone, Trim(s.contextInput)));
            var rt := Generate(s, complete);
            && rt.calls == [call]
            && call.messages[1].content == Server.UserPrefix(t, s.selectedTone) + Trim(s.contextInput)
            && rt.state.resultsVisible
            && !rt.state.loadingVisible
            && !rt.state.inputFormVisible
            && rt.state.generatedContent == complete(call).choices[0].content.GetOr("")
            && rt.state.notifications == [Notification(SuccessMessage, Green)]
  {
    var context := Trim(s.contextInput);
    var call := Server.CompletionRequestFor(Server.BuildPrompts(t, s.selectedTone, context));
    ServerProperties.UserPromptShape(t, s.selectedTone, context);
    var request := ApiRequest(s.selectedType, context, s.selectedTone);
    Sends(s, request);
    GenerateSent(s, request, complete);
    Dispatches(request, t, complete);
    var content := complete(call).choices[0].content;
    var handled := Server.Handle(ToRequestBody(request), complete);
    assert handled.response == Server.Response(200, Server.GeneratedBody(true, content, Server.TypeName(t), Str(s.selectedTone)));
    GeneratedResponseSucceeds(content, Server.TypeName(t), Str(s.selectedTone));
    ClientProperties.SettledOutcome(ShowLoadingState(s), ToFetchOutcome(handled.response));
  }

  /** A 200 with `success: true` reaches the page as a success that is
      shown, whose text is the content, or nothing for a `null` content. */
  lemma GeneratedResponseSucceeds(content: Option<string>, contentType: string, tone: JsValue)
    ensures var outcome := ToFetchOutcome(Server.Response(200, Server.GeneratedBody(true, content, contentType, tone)));
            Shown(outcome) && TextContent(outcome.body.content) == Some(content.GetOr(""))
  {
  }

  /** The synchronous part of generate sends `request` and enters loading. */
  lemma Sends(s: UiState, request: ApiRequest)
    requires s.selectedType != "" && s.selectedTone != "" && Trim(s.contextInput) != ""
    requires request == ApiRequest(s.selectedType, Trim(s.contextInput), s.selectedTone)
    ensures StartGenerate(s) == Started(ShowLoadingState(s), Some(request))
  {
  }

  /** The handler makes the one call for a request naming a known type. */
  lemma Dispatches(request: ApiRequest, t: Server.ContentType, complete: Server.Completion)
    requires request.contentType == Server.TypeName(t) && request.tone != "" && request.context != ""
    ensures var call := Server.CompletionRequestFor(Server.BuildPrompts(t, request.tone, request.context));
            Server.Handle(ToRequestBody(request), complete)
              == Server.Handled(Server.Relay(complete(call), t, Str(request.tone)), [call])
  {
    assert Server.ParseType(Str(request.contentType)) == Some(t);
  }

  /** Generate, once the synchronous part has sent `request`. */
  lemma GenerateSent(s: UiState, request: ApiRequest, complete: Server.Completion)
    requires StartGenerate(s) == Started(ShowLoadingState(s), Some(request))
    ensures var handled := Server.Handle(ToRequestBody(request), complete);
            Generate(s, complete) == RoundTrip(FinishGenerate(ShowLoadingState(s), ToFetchOutcome(handled.response)), handled.calls)
  {
  }

  /** An error response reaches the page as a failure carrying its message. */
  lemma ErrorResponseFails(status: nat, message: string)
    requires !(200 <= status < 300) && message != ""
    ensures !Succeeded(ToFetchOutcome(Server.Response(status, Server.ErrorBody(message))))
    ensures FailureMessage(ToFetchOutcome(Server.Response(status, Server.ErrorBody(message)))) == message
  {
  }

  /** The handler turns away a request naming an unknown type. */
  lemma RejectsUnknown(request: ApiRequest, complete: Server.Completion)
    requires request.contentType !in {"email", "social", "blog"}
    requires request.contentType != "" && request.tone != "" && request.context != ""
    ensures Server.Handle(ToRequestBody(request), complete)
              == Server.Handled(Server.Response(400, Server.ErrorBody(Server.InvalidTypeMessage)), [])
  {
    assert Server.ParseType(Str(request.contentType)).None?;
  }

  /** A valid selection whose completion fails ends with the server's
      generic message in a red toast, the form shown again and no results. */
  lemma RoundTripFailure(s: UiState, t: Server.ContentType, complete: Server.Completion)
    requires |s.notifications| <= 1
    requires s.selectedType == Server.TypeName(t) && s.selectedTone != "" && Trim(s.contextInput) != ""
    requires var call := Server.CompletionRequestFor(Server.BuildPrompts(t, s.selectedTone, Trim(s.contextInput)));
             complete(call).Thrown? || complete(call).choices == []
    ensures var rt := Generate(s, complete);
            && |rt.calls| == 1
            && rt.state.inputFormVisible
            && !rt.state.loadingVisible
            && !rt.state.resultsVisible
            && rt.state.generatedContent == s.generatedContent
            && rt.state.notifications == [Notification(Server.GenerationFailedMessage, Red)]
  {
    var request := ApiRequest(s.selectedType, Trim(s.contextInput), s.selectedTone);
    Sends(s, request);
    GenerateSent(s, request, complete);
    Dispatches(request, t, complete);
    var handled := Server.Handle(ToRequestBody(request), complete);
    assert handled.response == Server.Response(500, Server.ErrorBody(Server.GenerationFailedMessage));
    ErrorResponseFails(500, Server.GenerationFailedMessage);
    ClientProperties.SettledOutcome(ShowLoadingState(s), ToFetchOutcome(handled.response));
  }

  /** A selected type the handler does not know ends with its invalid-type
      message in red and the form shown again, and the completion API is
      never called. */
  lemma RoundTripUnknownType(s: UiState, complete: Server.Completion)
    requires |s.notifications| <= 1
    requires s.selectedType !in {"email", "social", "blog"}
    requires s.selectedType != "" && s.selectedTone != "" && Trim(s.contextInput) != ""
    ensures var rt := Generate(s, complete);
            && rt.calls == []
            && rt.state.inputFormVisible
            && !rt.state.loadingVisible
            && rt.state.notifications == [Notification(Server.InvalidTypeMessage, Red)]
  {
    var request := ApiRequest(s.selectedType, Trim(s.contextInput), s.selectedTone);
    Sends(s, request);
    GenerateSent(s, request, complete);
    var handled := Server.Handle(ToRequestBody(request), complete);
    RejectsUnknown(request, complete);
    ErrorResponseFails(400, Server.InvalidTypeMessage);
    ClientProperties.SettledOutcome(ShowLoadingState(s), ToFetchOutcome(handled.response));
  }
}

=== FILE: js_values.dfy ===
/** The few pieces of JavaScript value semantics the server handler and the
    browser controller rely on: truthiness (`!x`, `a || b`), conversion to a
    string (`${x}`, `new Error(x)`), assignment to a DOM node's
    `textContent`, and `String.prototype.trim`.
 */
module JsValues {
  import opened Wrappers

  /** A value read out of a parsed JSON body, as the JavaScript code sees it.
      Strings are kept exactly; every other JSON value (a number, a boolean,
      an object or an array) is abstracted by its truthiness and by the text
      ECMAScript's ToString gives it, or `None` when that conversion throws a
      `TypeError` (an object with its own non-function `toString` member,
      such as `{"toString": 1}`, or an array holding one). */
  datatype JsValue =
    | Undefined
    | Null
    | Str(s: string)
    | Other(truthy: bool, text: Option<string>)

  /** JavaScript truthiness: `undefined`, `null` and `""` are falsy. */
  function Truthy(v: JsValue): (b: bool)
    ensures v.Undefined? || v.Null? ==> !b
    ensures v.Str? ==> (b <==> v.s != "")
  {
    match v
    case Undefined => false
    case Null => false
    case Str(s) => s != ""
    case Other(t, _) => t
  }

  /** ECMAScript's ToString, as a template literal `${v}` and `new Error(v)`
      apply it; `None` when the conversion throws. */
  function Interpolate(v: JsValue): (r: Option<string>)
    ensures v.Str? ==> r == Some(v.s)
    ensures v.Undefined? ==> r == Some("undefined")
    ensures v.Null? ==> r == Some("null")
    ensures r.None? <==> v.Other? && v.text.None?
  {
    match v
    case Undefined => Some("undefined")
    case Null => Some("null")
    case Str(s) => Some(s)
    case Other(_, text) => text
  }

  /** The text a DOM node shows after `node.textContent = v`: the setter turns
      `null` and `undefined` into the empty string and converts anything else
      with ToString; `None` when that conversion throws. */
  function TextContent(v: JsValue): (r: Option<string>)
    ensures v.Undefined? || v.Null? ==> r == Some("")
    ensures v.Str? ==> r == Some(v.s)
    ensures r.None? <==> v.Other? && v.text.None?
  {
    match v
    case Undefined => Some("")
    case Null => Some("")
    case Str(s) => Some(s)
    case Other(_, text) => text
  }

  /** The code points `trim` strips: ECMAScript's WhiteSpace (tab, vertical
      tab, form feed, the byte order mark and every Unicode space separator)
      and LineTerminator (line feed, carriage return, U+2028, U+2029). */
  predicate IsTrimmable(c: char) {
    || c == '\t' || c == '\n' || c == '\U{000B}' || c == '\U{000C}' || c == '\r'
    || c == ' ' || c == '\U{00A0}' || c == '\U{1680}'
    || ('\U{2000}' <= c <= '\U{200A}')
    || c == '\U{2028}' || c == '\U{2029}' || c == '\U{202F}' || c == '\U{205F}'
    || c == '\U{3000}' || c == '\U{FEFF}'
  }

  predicate AllTrimmable(s: string) {
    forall i :: 0 <= i < |s| ==> IsTrimmable(s[i])
  }

  /** Every code point of `s` at an index in [lo, hi) is trimmable. */
  predicate TrimmableBetween(s: string, lo: int, hi: int)
    requires 0 <= lo <= hi <= |s|
  {
    forall i :: lo <= i < hi ==> IsTrimmable(s[i])
  }

  /** `s[a..b]` is what is left once a trimmable prefix `s[..a]` and a
      trimmable suffix `s[b..]` are dropped and neither end can be dropped. */
  predicate IsTrimSlice(s: string, a: int, b: int) {
    && 0 <= a <= b <= |s|
    && TrimmableBetween(s, 0, a)
    && TrimmableBetween(s, b, |s|)
    && (a < b ==> !IsTrimmable(s[a]) && !IsTrimmable(s[b - 1]))
  }

  /** What `trim` must return: the slice of an IsTrimSlice. */
  predicate IsTrimOf(r: string, s: string) {
    exists a, b | 0 <= a <= b <= |s| :: IsTrimSlice(s, a, b) && r == s[a..b]
  }

  /** Drops the leading trimmable code points. */
  function TrimStart(s: string): (r: string)
    ensures |r| <= |s| && r == s[|s| - |r|..]
    ensures TrimmableBetween(s, 0, |s| - |r|)
    ensures r == [] || !IsTrimmable(r[0])
    decreases |s|
  {
    if |s| > 0 && IsTrimmable(s[0]) then TrimStart(s[1..]) else s
  }

  /** Drops the trailing trimmable code points. */
  function TrimEnd(s: string): (r: string)
    ensures |r| <= |s| && r == s[..|r|]
    ensures TrimmableBetween(s, |r|, |s|)
    ensures r == [] || !IsTrimmable(r[|r| - 1])
    decreases |s|
  {
    if |s| > 0 && IsTrimmable(s[|s| - 1]) then TrimEnd(s[..|s| - 1]) else s
  }

  /** `String.prototype.trim`. */
  function Trim(s: string): (r: string)
    ensures |r| <= |s|
  {
    TrimEnd(TrimStart(s))
  }

  /** `trim` returns the slice its characterisation describes. */
  lemma TrimIsTrimOf(s: string)
    ensures IsTrimOf(Trim(s), s)
  {
    var t := TrimStart(s);
    var r := TrimEnd(t);
    var a := |s| - |t|;
    var b := a + |r|;
    assert t == s[a..];
    assert r == t[..|r|];
    assert r == s[a..b];
    assert TrimmableBetween(s, b, |s|) by {
      forall i | b <= i < |s|
        ensures IsTrimmable(s[i])
      {
        assert s[i] == t[i - a];
      }
    }
    assert a < b ==> s[a] == r[0] && s[b - 1] == r[|r| - 1];
    assert IsTrimSlice(s, a, b);
  }

  /** Neither end of a trimmed string is trimmable. */
  lemma TrimEnds(s: string)
    ensures var r := Trim(s);
            r != [] ==> !IsTrimmable(r[0]) && !IsTrimmable(r[|r| - 1])
  {
    var t := TrimStart(s);
    var r := TrimEnd(t);
    if r != [] {
      assert r[0] == t[0];
    }
  }

  /** Two trim slices of the same string that both keep something coincide. */
  lemma TrimSliceUnique(s: string, a1: int, b1: int, a2: int, b2: int)
    requires IsTrimSlice(s, a1, b1) && IsTrimSlice(s, a2, b2)
    ensures b1 - a1 == b2 - a2 && (a1 < b1 ==> a1 == a2 && b1 == b2)
  {
    if a1 < b1 && a2 < b2 {
      // Each start is the first kept index, each end one past the last.
      assert a1 == a2 && b1 == b2;
    } else if a1 < b1 {
      // Nothing is kept by the second slice, so s[a1] would be trimmable.
      assert false;
    } else if a2 < b2 {
      assert false;
    }
  }

  /** The trimmed string is unique: any two results satisfying IsTrimOf agree. */
  lemma TrimOfUnique(r1: string, r2: string, s: string)
    requires IsTrimOf(r1, s) && IsTrimOf(r2, s)
    ensures r1 == r2
  {
    var a1, b1 :| IsTrimSlice(s, a1, b1) && r1 == s[a1..b1];
    var a2, b2 :| IsTrimSlice(s, a2, b2) && r2 == s[a2..b2];
    TrimSliceUnique(s, a1, b1, a2, b2);
  }

  /** A trim keeps every code point that is not trimmable, so it is not empty
      when there is one. */
  lemma TrimKeeps(r: string, s: string, i: int)
    requires IsTrimOf(r, s)
    requires 0 <= i < |s| && !IsTrimmable(s[i])
    ensures exists a, b | IsTrimSlice(s, a, b) && r == s[a..b] :: a <= i < b
    ensures r != []
  {
    var a, b :| 0 <= a <= b <= |s| && IsTrimSlice(s, a, b) && r == s[a..b];
    assert a <= i < b;
  }

  /** `s.trim()` is empty exactly when every code point of `s` is trimmable. */
  lemma TrimEmptyIff(s: string)
    ensures Trim(s) == [] <==> AllTrimmable(s)
  {
    TrimIsTrimOf(s);
    if AllTrimmable(s) {
      assert IsTrimSlice(s, 0, 0);
      assert IsTrimOf([], s) by {
        assert s[0..0] == [];
      }
      TrimOfUnique(Trim(s), [], s);
    } else {
      var i :| 0 <= i < |s| && !IsTrimmable(s[i]);
      TrimKeeps(Trim(s), s, i);
    }
  }

  /** A string with no trimmable first or last code point trims to itself. */
  lemma TrimFixesTrimmed(r: string)
    requires r == [] || (!IsTrimmable(r[0]) && !IsTrimmable(r[|r| - 1]))
    ensures Trim(r) == r
  {
    assert IsTrimSlice(r, 0, |r|);
    assert r[0..|r|] == r;
    TrimIsTrimOf(r);
    TrimOfUnique(Trim(r), r, r);
  }

  /** Trimming twice is trimming once. */
  lemma TrimIdempotent(s: string)
    ensures Trim(Trim(s)) == Trim(s)
  {
    TrimEnds(s);
    TrimFixesTrimmed(Trim(s));
  }
}

=== FILE: server.dfy ===
/** The `POST /api/generate` handler of the generation proxy.

    The handler reads `type`, `context` and `tone` from the JSON body, rejects
    a request with a falsy field, picks a fixed system/user prompt pair for
    the content type, makes one call to the hosted completion API and relays
    the first choice's text. The completion API is a parameter: a total
    function from the request the handler sends to what comes back.
 */
module Server {
  import opened Wrappers
  import opened JsValues

  /** The content types the `switch (type)` accepts. */
  datatype ContentType = Email | Social | Blog

  /** The string a request's `type` must equal (with `===`) to select `t`. */
  function TypeName(t: ContentType): string {
    match t
    case Email => "email"
    case Social => "social"
    case Blog => "blog"
  }

  /** The `switch (type)`: only the three exact strings select a template. */
  function ParseType(v: JsValue): (r: Option<ContentType>)
    ensures r.Some? ==> v == Str(TypeName(r.value))
    ensures (exists t :: v == Str(TypeName(t))) ==> r.Some?
  {
    match v
    case Str(s) =>
      if s == "email" then Some(Email)
      else if s == "social" then Some(Social)
      else if s == "blog" then Some(Blog)
      else None
    case _ => None
  }

  /** The destructured fields of the request body; a field the body lacks is
      `Undefined`. */
  datatype RequestBody = RequestBody(contentType: JsValue, context: JsValue, tone: JsValue)

  datatype Prompts = Prompts(system: string, user: string)

  datatype Message = Message(role: string, content: string)

  /** What the handler hands to the completion API. The sampling temperature
      is not modelled. */
  datatype CompletionRequest = CompletionRequest(model: string, messages: seq<Message>, maxTokens: nat)

  /** One returned choice; its message content may be `null`. */
  datatype Choice = Choice(content: Option<string>)

  /** What the completion call gives back: it either throws (any reason) or
      resolves with a list of choices. */
  datatype CompletionResult = Thrown(reason: string) | Completed(choices: seq<Choice>)

  type Completion = CompletionRequest -> CompletionResult

  /** The JSON the handler sends back. */
  datatype ResponseBody =
    | ErrorBody(error: string)
    | GeneratedBody(success: bool, content: Option<string>, contentType: string, tone: JsValue)

  datatype Response = Response(status: nat, body: ResponseBody)

  /** A response together with every completion call made to produce it, in
      order. */
  datatype Handled = Handled(response: Response, calls: seq<CompletionRequest>)

  const ModelName := "gpt-3.5-turbo"
  const MaxTokens := 500

  const MissingFieldsMessage := "Missing required fields: type, context, and tone"
  const InvalidTypeMessage := "Invalid content type"
  const GenerationFailedMessage := "Failed to generate content. Please try again."

  const EmailSystemHead := "You are a professional email writing assistant. Write a "
  const EmailSystemTail := " email based on the user's requirements. Make it concise, clear, and appropriate for the given context."
  const EmailUserHead := "Write a "
  const EmailUserMiddle := " email with the following context: "

  const SocialSystemHead := "You are a social media content creator. Write an engaging "
  const SocialSystemTail := " social media post based on the user's requirements. Make it attention-grabbing and shareable."
  const SocialUserHead := "Write a "
  const SocialUserMiddle := " social media post with the following context: "

  const BlogSystem := "You are a content strategist. Create a detailed blog post outline based on the user's requirements. Include main sections, key points, and a compelling introduction."
  const BlogUserHead := "Create a blog post outline with the following context: "

  /** The fixed text the user prompt puts before the context. */
  function UserPrefix(t: ContentType, tone: string): string {
    match t
    case Email => EmailUserHead + tone + EmailUserMiddle
    case Social => SocialUserHead + tone + SocialUserMiddle
    case Blog => BlogUserHead
  }

  /** The prompt pair for a content type, with the tone and context already
      rendered as the template literals render them. */
  function BuildPrompts(t: ContentType, tone: string, context: string): (p: Prompts)
    ensures |context| <= |p.user| && p.user[|p.user| - |context|..] == context
    ensures t == Blog ==> p.system == BlogSystem
  {
    match t
    case Email => Prompts(EmailSystemHead + tone + EmailSystemTail, EmailUserHead + tone + EmailUserMiddle + context)
    case Social => Prompts(SocialSystemHead + tone + SocialSystemTail, SocialUserHead + tone + SocialUserMiddle + context)
    case Blog => Prompts(BlogSystem, BlogUserHead + context)
  }

  /** The request the handler sends for a prompt pair. */
  function CompletionRequestFor(p: Prompts): (r: CompletionRequest)
    ensures r.model == ModelName && r.maxTokens == MaxTokens
    ensures r.messages == [Message("system", p.system), Message("user", p.user)]
  {
    CompletionRequest(ModelName, [Message("system", p.system), Message("user", p.user)], MaxTokens)
  }

  predicate AllFieldsPresent(b: RequestBody) {
    Truthy(b.context) && Truthy(b.contentType) && Truthy(b.tone)
  }

  /** The `switch` case's two template literals for `t`: `${tone}` (email
      and social only) and `${context}` are converted to strings, and a
      conversion that throws ends the handler in its catch block. The blog
      templates never read the tone. */
  function RenderPrompts(t: ContentType, tone: JsValue, context: JsValue): (r: Option<Prompts>)
    ensures r.Some? <==> (t == Blog || Interpolate(tone).Some?) && Interpolate(context).Some?
    ensures r.Some? ==> r.value == BuildPrompts(t, Interpolate(tone).GetOr(""), Interpolate(context).value)
  {
    if t != Blog && Interpolate(tone).None? then None
    else
      match Interpolate(context)
      case None => None
      case Some(c) => Some(BuildPrompts(t, Interpolate(tone).GetOr(""), c))
  }

  /** Turns what the completion call gave back into the response: a thrown
      call, or a reply without a first choice (reading `message` of
      `undefined` throws), ends in the catch block's fixed 500. */
  function Relay(result: CompletionResult, t: ContentType, tone: JsValue): (r: Response)
    ensures r.status == 200 <==> result.Completed? && |result.choices| > 0
    ensures r.status != 200 ==> r == Response(500, ErrorBody(GenerationFailedMessage))
    ensures r.status == 200 ==> r.body == GeneratedBody(true, result.choices[0].content, TypeName(t), tone)
  {
    match result
    case Thrown(_) => Response(500, ErrorBody(GenerationFailedMessage))
    case Completed(choices) =>
      if |choices| == 0 then Response(500, ErrorBody(GenerationFailedMessage))
      else Response(200, GeneratedBody(true, choices[0].content, TypeName(t), tone))
  }

  /** The handler body: the field check, then the type dispatch and the
      templates, then one completion call whose outcome is relayed. Every
      exception, from the templates or the call, ends in the catch block's
      fixed 500. */
  function Handle(b: RequestBody, complete: Completion): (r: Handled)
    ensures r.response.status in {200, 400, 500}
    ensures |r.calls| <= 1
    ensures r.response.status == 400 ==> r.calls == []
    ensures r.calls == [] && r.response.status != 400 ==> r.response == Response(500, ErrorBody(GenerationFailedMessage))
  {
    if !Truthy(b.context) || !Truthy(b.contentType) || !Truthy(b.tone) then
      Handled(Response(400, ErrorBody(MissingFieldsMessage)), [])
    else
      match ParseType(b.contentType)
      case None => Handled(Response(400, ErrorBody(InvalidTypeMessage)), [])
      case Some(t) =>
        match RenderPrompts(t, b.tone, b.context)
        case None => Handled(Response(500, ErrorBody(GenerationFailedMessage)), [])
        case Some(prompts) =>
          var request := CompletionRequestFor(prompts);
          Handled(Relay(complete(request), t, b.tone), [request])
  }
}

=== FILE: server_properties.dfy ===
/** What the generation handler promises, over all request bodies and all
    behaviours of the completion API. */
module ServerProperties {
  import opened Wrappers
  import opened JsValues
  import opened Server

  /** `t` occurs in `s` starting at index `i`. */
  predicate OccursAt(s: string, t: string, i: int) {
    0 <= i <= |s| - |t| && s[i..i + |t|] == t
  }

  /** `t` occurs in `s` as a contiguous run. */
  ghost predicate Contains(s: string, t: string) {
    exists i :: OccursAt(s, t, i)
  }

  lemma ContainsMiddle(p: string, x: string, q: string)
    ensures Contains(p + x + q, x)
  {
    assert OccursAt(p + x + q, x, |p|);
  }

  lemma CancelPrefix(p: string, x: string, y: string)
    requires p + x == p + y
    ensures x == y
  {
    assert x == (p + x)[|p|..];
    assert y == (p + y)[|p|..];
  }

  lemma CancelAround(p: string, x: string, y: string, q: string)
    requires p + x + q == p + y + q
    ensures x == y
  {
    assert |x| == |y|;
    assert x == (p + x + q)[|p|..|p| + |x|];
    assert y == (p + y + q)[|p|..|p| + |y|];
  }

  // ---------------------------------------------------------------------
  // Templates

  /** Every user prompt is the type's fixed prefix followed by the context,
      verbatim; email and social prefixes (and system prompts) carry the
      tone. */
  lemma UserPromptShape(t: ContentType, tone: string, context: string)
    ensures BuildPrompts(t, tone, context).user == UserPrefix(t, tone) + context
    ensures t != Blog ==> Contains(UserPrefix(t, tone), tone)
    ensures t != Blog ==> Contains(BuildPrompts(t, tone, context).system, tone)
    ensures t == Blog ==> BuildPrompts(t, tone, context).system == BlogSystem
  {
    match t
    case Email =>
      ContainsMiddle(EmailUserHead, tone, EmailUserMiddle);
      ContainsMiddle(EmailSystemHead, tone, EmailSystemTail);
    case Social =>
      ContainsMiddle(SocialUserHead, tone, SocialUserMiddle);
      ContainsMiddle(SocialSystemHead, tone, SocialSystemTail);
    case Blog =>
  }

  /** Which templates use the tone: for email and social two tones give the
      same prompt pair only if they are equal; the blog pair ignores it. */
  lemma ToneDeterminesPrompts(t: ContentType, tone1: string, tone2: string, context: string)
    ensures t != Blog ==> (BuildPrompts(t, tone1, context) == BuildPrompts(t, tone2, context) <==> tone1 == tone2)
    ensures t == Blog ==> BuildPrompts(t, tone1, context) == BuildPrompts(t, tone2, context)
  {
    if BuildPrompts(t, tone1, context) == BuildPrompts(t, tone2, context) {
      match t
      case Email => CancelAround(EmailSystemHead, tone1, tone2, EmailSystemTail);
      case Social => CancelAround(SocialSystemHead, tone1, tone2, SocialSystemTail);
      case Blog =>
    }
  }

  /** The context is interpolated into every template: for a fixed type and
      tone, distinct contexts give distinct prompt pairs. */
  lemma ContextDeterminesPrompts(t: ContentType, tone: string, context1: string, context2: string)
    ensures BuildPrompts(t, tone, context1) == BuildPrompts(t, tone, context2) <==> context1 == context2
  {
    if BuildPrompts(t, tone, context1) == BuildPrompts(t, tone, context2) {
      UserPromptShape(t, tone, context1);
      UserPromptShape(t, tone, context2);
      CancelPrefix(UserPrefix(t, tone), context1, context2);
    }
  }

  // ---------------------------------------------------------------------
  // The handler

  /** The field check comes first: a falsy field gives the missing-fields
      400, with no call made, whatever the type is; and that response is
      given for nothing else. */
  lemma MissingFieldsFirst(b: RequestBody, complete: Completion)
    ensures Handle(b, complete).response == Response(400, ErrorBody(MissingFieldsMessage)) <==> !AllFieldsPresent(b)
    ensures !AllFieldsPresent(b) ==> Handle(b, complete).calls == []
  {
  }

  /** A present `type` other than the three names gives the invalid-type
      400 and the completion API is never called; the invalid-type 400 is
      given for nothing else. */
  lemma UnknownTypeRejected(b: RequestBody, complete: Completion)
    ensures Handle(b, complete).response == Response(400, ErrorBody(InvalidTypeMessage))
            <==> AllFieldsPresent(b) && ParseType(b.contentType).None?
    ensures AllFieldsPresent(b) && ParseType(b.contentType).None? ==> Handle(b, complete).calls == []
  {
  }

  /** A 200 is only ever given for one of the three type names, after
      exactly one call. */
  lemma OkOnlyForKnownType(b: RequestBody, complete: Completion)
    ensures Handle(b, complete).response.status == 200 ==>
              && AllFieldsPresent(b)
              && (exists t :: b.contentType == Str(TypeName(t)))
              && |Handle(b, complete).calls| == 1
  {
    if Handle(b, complete).response.status == 200 {
      var t := ParseType(b.contentType).value;
      assert b.contentType == Str(TypeName(t));
    }
  }

  /** On valid input exactly one call is made when the templates render,
      with the fixed model name, token limit and the type's system/user
      prompt pair, and its outcome is relayed; when a template throws, no
      call is made. */
  lemma ValidInputCallsOnce(b: RequestBody, complete: Completion, t: ContentType)
    requires AllFieldsPresent(b) && b.contentType == Str(TypeName(t))
    ensures |Handle(b, complete).calls| == 1 <==> RenderPrompts(t, b.tone, b.context).Some?
    ensures RenderPrompts(t, b.tone, b.context).Some? ==>
              var tone := Interpolate(b.tone).GetOr("");
              var context := Interpolate(b.context).value;
              var call := Handle(b, complete).calls[0];
              && call.model == "gpt-3.5-turbo"
              && call.maxTokens == 500
              && |call.messages| == 2
              && call.messages[0] == Message("system", BuildPrompts(t, tone, context).system)
              && call.messages[1] == Message("user", UserPrefix(t, tone) + context)
    ensures RenderPrompts(t, b.tone, b.context).Some? ==>
              Handle(b, complete).response == Relay(complete(Handle(b, complete).calls[0]), t, b.tone)
  {
    assert ParseType(b.contentType) == Some(t);
    if RenderPrompts(t, b.tone, b.context).Some? {
      UserPromptShape(t, Interpolate(b.tone).GetOr(""), Interpolate(b.context).value);
    }
  }

  /** A template conversion that throws ends in the fixed 500 before any
      call is made, and that response without a call happens for nothing
      else. */
  lemma UnrenderableFieldFails(b: RequestBody, complete: Completion)
    ensures Handle(b, complete) == Handled(Response(500, ErrorBody(GenerationFailedMessage)), [])
            <==> && AllFieldsPresent(b)
                 && ParseType(b.contentType).Some?
                 && RenderPrompts(ParseType(b.contentType).value, b.tone, b.context).None?
  {
  }

  /** A tone object whose `toString` member is not a function: the email
      templates throw while converting it, so the request fails without a
      call; the blog templates never read the tone, so the call is made. */
  lemma UnconvertibleTone(context: string, complete: Completion)
    requires context != ""
    ensures Handle(RequestBody(Str("email"), Str(context), Other(true, None)), complete)
              == Handled(Response(500, ErrorBody(GenerationFailedMessage)), [])
    ensures |Handle(RequestBody(Str("blog"), Str(context), Other(true, None)), complete).calls| == 1
  {
    assert ParseType(Str("email")) == Some(Email);
    assert ParseType(Str("blog")) == Some(Blog);
  }

  /** A 200 carries `success: true`, the first choice's content and echoes
      the request's type and tone. */
  lemma SuccessEchoesRequest(b: RequestBody, complete: Completion)
    requires Handle(b, complete).response.status == 200
    ensures var h := Handle(b, complete);
            && |h.calls| == 1
            && complete(h.calls[0]).Completed?
            && |complete(h.calls[0]).choices| > 0
            && h.response.body.GeneratedBody?
            && h.response.body.success
            && h.response.body.content == complete(h.calls[0]).choices[0].content
            && b.contentType == Str(h.response.body.contentType)
            && h.response.body.tone == b.tone
  {
  }

  /** A failed call (thrown, or no first choice) gives the same 500 whatever
      went wrong: two completion APIs that both fail on the request produce
      identical responses. */
  lemma FailureIsGeneric(b: RequestBody, complete1: Completion, complete2: Completion)
    requires Handle(b, complete1).calls != []
    requires var call := Handle(b, complete1).calls[0];
             && (complete1(call).Thrown? || complete1(call).choices == [])
             && (complete2(call).Thrown? || complete2(call).choices == [])
    ensures Handle(b, complete1).response == Response(500, ErrorBody(GenerationFailedMessage))
    ensures Handle(b, complete1).response == Handle(b, complete2).response
  {
  }

  /** The server does not trim: a context of nothing but whitespace passes
      the field check and reaches the completion API verbatim. */
  lemma WhitespaceContextAccepted(t: ContentType, tone: string, context: string, complete: Completion)
    requires tone != [] && context != [] && AllTrimmable(context)
    ensures var h := Handle(RequestBody(Str(TypeName(t)), Str(context), Str(tone)), complete);
            && |h.calls| == 1
            && h.calls[0].messages[1].content == UserPrefix(t, tone) + context
  {
    UserPromptShape(t, tone, context);
  }

  /** A stand-in completion API that replies with the user prompt it was
      sent. */
  function EchoUserPrompt(request: CompletionRequest): CompletionResult {
    if |request.messages| >= 2 then Completed([Choice(Some(request.messages[1].content))])
    else Completed([])
  }

  /** Against the echoing stand-in, a friendly email request comes back as a
      200 whose content mentions the tone and the context. */
  lemma EchoedEmailMentionsTone()
    ensures var h := Handle(RequestBody(Str("email"), Str("thank a colleague"), Str("friendly")), EchoUserPrompt);
            && h.response.status == 200
            && h.response.body.GeneratedBody?
            && h.response.body.content.Some?
            && Contains(h.response.body.content.value, "friendly")
            && Contains(h.response.body.content.value, "thank a colleague")
  {
    var user := EmailUserHead + "friendly" + EmailUserMiddle + "thank a colleague";
    ContainsMiddle(EmailUserHead, "friendly", EmailUserMiddle + "thank a colleague");
    assert EmailUserHead + "friendly" + (EmailUserMiddle + "thank a colleague") == user;
    ContainsMiddle(EmailUserHead + "friendly" + EmailUserMiddle, "thank a colleague", "");
    assert EmailUserHead + "friendly" + EmailUserMiddle + "thank a colleague" + "" == user;
  }
}

=== FILE: wrappers.dfy ===
/** A value that may be missing. */
module Wrappers {

  datatype Option<+T> = None | Some(value: T) {

    /** The wrapped value, or `default` when there is none. */
    function GetOr(default: T): T {
      match this
      case Some(v) => v
      case None => default
    }
  }
}
